=== FILE: README.md ===
# ansi_codes — a Dafny model of the State and County registries

The Ruby library `ansi_codes` gives the US Census ANSI codes of the states and
counties. Each class loads its data file once, when the class is loaded. Every
row becomes an immutable object, and the object is entered into hashes keyed
by its lower-cased attributes. Then the hashes and the class are frozen.
Lookups route a query to one of those hashes by the query's type and shape.

This project models the two classes that make up that core:

- **`State`** (`lib/ansi_codes/state.rb`, module `States`, file `state.dfy`).
  Each State has a two-digit ANSI code, a name and a two-letter abbreviation.
  Registration stores it in three hashes (code, name, abbreviation).
  `State.find` routes queries this way:
  - an Integer is formatted with `'%02d'` and looked up by code;
  - a String that `Integer(value, 10)` accepts is looked up by code as it is;
  - any other two-character String is looked up by abbreviation;
  - any other String is looked up by name;
  - anything else is an `ArgumentError`.

  `State.all` lists the values of the code hash in insertion order.
- **`County`** (`lib/ansi_codes/county.rb`, module `Counties`, file `county.dfy`).
  Each County belongs to a State and has a three-digit ANSI code and a name.
  The name is split into a short name and a designation by the pattern
  `(.*) (city|Borough|County|City and Borough|Census Area|Municipality|Parish|Islands?|District|Municipio)$`.
  Registration stores the County in the two hashes of its own State, by code
  and by name. `County.find` works in two steps:
  - It first resolves the State. A State object is used as it is; anything
    else goes through `State.find`, whose errors come first.
  - It then routes the county query. An Integer is formatted with `'%03d'`
    and looked up by code, as is a String of exactly three digits. Any other
    String is looked up by name, and anything else is an `ArgumentError`.

  `County.all(state)` lists that State's counties; `State#counties` is
  `County.all(self)`. `County.all` lists every State's counties, State after
  State.

Supporting modules:

- `Common` (`common.dfy`) holds the query, selector, error and result types.
- `Text` (`text.dfy`) holds ASCII `downcase`, the numeric-string shapes and
  `'%0<width>d'` formatting with its inverse.
- `OrderedMaps` (`ordered_map.dfy`) models Ruby's Hash. Keys are kept in
  insertion order, and storing under a key that is already present keeps its
  place.

How the model represents the Ruby program:

- States and Counties are Dafny classes with `const` fields, so two lookups
  return the *same object* as in Ruby, and the County hashes are keyed by the
  State object itself.
- The registries (`States.StateRegistry`, `Counties.CountyRegistry`) are
  classes. Their hashes are a datatype value that the methods reassign, and
  their `frozen` flag stands for Ruby's `freeze`.
- Loading is a loop over an in-memory sequence of rows. Every lookup and
  listing is a function of the hashes, and every property is proved about
  those functions.
- Exceptions are `Err` values: `StateNotFound` and `CountyNotFound` carry what
  the Ruby `RuntimeError` message quotes. `NoCountyTable` stands for the
  `NoMethodError` raised when `@counties[state]` is nil, and `Frozen` for a
  store into a frozen hash.

How the designation split behaves: because `(.*)` is greedy, the name splits
at the *last* space after which the rest of the name is one of the
alternatives. `City and Borough` is listed among them, but its own inner space
before `Borough` is a later split point. So it is never the designation:
"Juneau City and Borough" splits into "Juneau City and" and "Borough". The
model follows the pattern as written. `Counties.CityAndBoroughUnreachable`
and `Counties.SplitCityAndBorough` state this.

## Model

| member | source | states |
|---|---|---|
| `States.State.constructor` | lib/ansi_codes/state.rb:25-29 | A State keeps exactly the code, name and abbreviation it was built with. |
| `States.StateLookup` | lib/ansi_codes/state.rb:53-65 | Only non-Integer, non-String queries are an ArgumentError. A query goes to the code hash exactly when it is an Integer or an integer String, and to the abbreviation hash exactly when it is a non-integer String of two characters. An Integer is looked up as its `'%02d'` form, a String as itself. |
| `States.StateTables.Find` | lib/ansi_codes/state.rb:52-70 | The lookup succeeds exactly when the lower-cased routed value is a key of the selected hash, and it returns the State stored there. A miss is StateNotFound quoting the String as given, or the padded form of an Integer. |
| `States.StateRegistry.constructor` | lib/ansi_codes/state.rb:77 | The registry starts with three empty hashes and is not frozen. |
| `States.StateRegistry.Register` | lib/ansi_codes/state.rb:25-35 | A new State is built from the given attributes and stored in all three hashes under its lower-cased code, name and abbreviation. Once frozen, registration is refused and nothing changes. |
| `States.StateRegistry.Load` | lib/ansi_codes/state.rb:77-85 | One State per row, built from that row and in file order. Each is a new object, and no object appears twice. The hashes end up as registering those States in turn makes them, and the registry is frozen. |
| `States.FindIntegerIsPaddedCode` | lib/ansi_codes/state.rb:54-56 | For every n, `find(n)` is `find('%02d' % n)`, errors included. |
| `States.FindOneIsFindZeroOne` | lib/ansi_codes/state.rb:54-56 | `find(1) == find('01')`. |
| `States.IntegerStringNotPadded` | lib/ansi_codes/state.rb:57-67 | An integer String is not padded. While every code key has two characters, an integer String of any other length (such as '1') fails with StateNotFound quoting it. |
| `States.FindIgnoresCase` | lib/ansi_codes/state.rb:66 | Two Strings that lower-case alike find the same State, or both find none. |
| `States.LoadedStateFound` | lib/ansi_codes/state.rb:30-34 | After the load, every well-formed State with unique keys is found again by its code String, by the Integer value of its code, by its abbreviation and by its name. |
| `States.FoundIsLoaded` | lib/ansi_codes/state.rb:66-67 | After the load, any State a lookup returns is one of the loaded States. |
| `States.LoadedValid` | lib/ansi_codes/state.rb:31-33 | The hashes filled by the load are well formed: each key is listed once, and the listed keys are exactly the stored ones. |
| `States.StateTables.Add` | lib/ansi_codes/state.rb:30-34 | The three stores of `State#initialize`. It has no contract of its own: `OrderedMaps.PutSpec` states each store, and `States.LoadedStateFound` states that a loaded State is found through them. |
| `States.StateTables.All` | lib/ansi_codes/state.rb:73-75 | `State.all`, the code hash's values. It has no contract of its own: `States.AllFollowsCodeKeys` and `States.AllInLoadOrder` state what it lists. |
| `States.AllFollowsCodeKeys` | lib/ansi_codes/state.rb:73-75 | `State.all` has one State per code key, in key order: the State stored under that key. |
| `States.AllInLoadOrder` | lib/ansi_codes/state.rb:73-75 | After the load, with distinct code keys, `State.all` is exactly the loaded States in file order. |
| `Text.Lower` | lib/ansi_codes/state.rb:66 | `downcase` keeps the length, lower-cases each letter, keeps every other character, and leaves no upper-case letter. |
| `Text.IntegerIgnoresCase` | lib/ansi_codes/state.rb:58-62 | Whether a String is an integer, or exactly three digits, does not change under lower-casing. |
| `Text.Pad` | lib/ansi_codes/state.rb:55 | `'%0<w>d' % n` is a digit string whose value is n and which has at least w characters. It has exactly w characters if and only if n < 10^w. A result wider than w has no leading zero, so `'%03d' % 1000` is "1000". |
| `Text.PadRoundTrip` | lib/ansi_codes/county.rb:64 | Formatting a digit string's value back to the string's width gives the string itself. |
| `OrderedMaps.PutSpec` | lib/ansi_codes/state.rb:31-33 | `hash[k] = v` keeps the hash well formed, stores v under k and leaves every other key alone. It appends k to the key order only when k is new. |
| `OrderedMaps.PutAllValues` | lib/ansi_codes/state.rb:74 | Storing values with distinct keys into `{}` and then taking `values` gives back those values in order. |
| `Counties.LastSplitPoint` | lib/ansi_codes/county.rb:21 | The result is a split point below the bound with no split point after it, or there is no split point below the bound. |
| `Counties.SplitDesignation` | lib/ansi_codes/county.rb:33-35 | The designation is non-empty exactly when some split point exists. Then the name is short name, a space and designation, the designation is one of the alternatives, and no split point lies after the short name. Otherwise the short name is the name. The short name is never longer than the name, and the designation never longer than the name minus one. |
| `Counties.CityAndBoroughUnreachable` | lib/ansi_codes/county.rb:21 | No name ever gets the designation "City and Borough". |
| `Counties.SplitCounty` | lib/ansi_codes/county.rb:33-35 | "Autauga County" splits into "Autauga" and "County". |
| `Counties.SplitCityAndBorough` | lib/ansi_codes/county.rb:33-35 | "Juneau City and Borough" splits into "Juneau City and" and "Borough". |
| `Counties.SplitLowerCaseCity` | lib/ansi_codes/county.rb:33-35 | "Norfolk city" splits into "Norfolk" and "city". |
| `Counties.SplitNoDesignation` | lib/ansi_codes/county.rb:33-35 | "Carson City" has no designation, because the match is case-sensitive: its short name is the whole name and its designation is "". |
| `Counties.County.constructor` | lib/ansi_codes/county.rb:29-36 | A County keeps its State, code and name. Its short name and designation are the split of its name; they are defined from the name, so this holds for every County. |
| `Counties.ResolveState` | lib/ansi_codes/county.rb:61 | A State argument is used as it is; any other argument gives exactly what `State.find` gives. |
| `Counties.CountyLookup` | lib/ansi_codes/county.rb:62-68 | Only non-Integer, non-String queries are an ArgumentError. A query goes to the code hash exactly when it is an Integer or a String of exactly three digits, and to the name hash otherwise. An Integer is looked up as its `'%03d'` form, a String as itself. |
| `Counties.Find` | lib/ansi_codes/county.rb:60-73 | State errors come first, then the ArgumentError for the county argument, then the missing-hashes error. After that the lookup succeeds exactly when the lower-cased routed value is a key of the State's selected hash, and it returns the County stored there. A miss is CountyNotFound quoting the routed value and the State's name. |
| `Counties.NamePartsBounded` | lib/ansi_codes/county.rb:33-35 | Every County, and so every County of `County.all`, has a short name no longer than its name and a designation shorter than its name whenever the name is not empty. |
| `Counties.CountiesOf` | lib/ansi_codes/county.rb:47-48 | `County.all(state)` (and `State#counties`) succeeds exactly when the State has hashes in the registry. |
| `Counties.RowState` | lib/ansi_codes/county.rb:30-37 | A row's State is what `State.find(state_ansi)` finds, provided the registry has hashes for it. Otherwise the error is that of `State.find`, or the missing hashes. |
| `Counties.CountyRegistry.constructor` | lib/ansi_codes/county.rb:75 | Every State of `State.all` starts with empty hashes, and the registry is not frozen. |
| `Counties.CountyRegistry.Register` | lib/ansi_codes/county.rb:29-41 | A row whose State cannot be resolved fails with that error, and nothing changes. A store into a frozen registry is refused, and nothing changes. Otherwise a new County is built from the row, with its name split, and stored in its own State's hashes only. |
| `Counties.CountyRegistry.Load` | lib/ansi_codes/county.rb:75-84 | Counties are registered one per row, in file order, each built from its row. Each is a new object, and no object appears twice. The first row that cannot be registered stops the load with that row's error, and the registry stays unfrozen. Otherwise every row is registered and the registry is frozen. |
| `Counties.Blank` | lib/ansi_codes/county.rb:75 | The initial `@counties`, empty hashes for each State of `State.all`. It has no contract of its own: `Counties.BlankTables` and `Counties.BlankKeys` state it. |
| `Counties.BlankTables` | lib/ansi_codes/county.rb:75 | The initial hashes hold exactly the listed States, each with empty hashes. |
| `Counties.BlankKeys` | lib/ansi_codes/county.rb:75 | With distinct States, the initial hash lists them in `State.all` order. |
| `Counties.AddCounty` | lib/ansi_codes/county.rb:37-40 | The two stores of `County#initialize` into its own State's hashes, through `CountyTables.Add`. It has no contract of its own: `Counties.AddCountyKeepsOthers` and `Counties.AddCountiesTables` state it. |
| `Counties.AddCountyKeepsOthers` | lib/ansi_codes/county.rb:37-40 | Registering a County leaves every other State's hashes unchanged and adds no State. |
| `Counties.AddCountiesKeepsStates` | lib/ansi_codes/county.rb:78-80 | Registering any sequence of Counties neither adds nor removes a State, nor reorders them. |
| `Counties.AddCountiesTables` | lib/ansi_codes/county.rb:37-40 | Starting from empty hashes, each State's hashes end up holding exactly its own Counties, stored in order under their code and name keys. |
| `Counties.FindIntegerIsPaddedCode` | lib/ansi_codes/county.rb:63-64 | For n < 1000, `find(s, n)` is `find(s, '%03d' % n)`. |
| `Counties.LargeIntegerNotFound` | lib/ansi_codes/county.rb:63-70 | While every code key has three characters, an Integer of 1000 or more fails with CountyNotFound quoting its full decimal form and the State's name (`find(45, 1000)`). |
| `Counties.FindIgnoresCase` | lib/ansi_codes/county.rb:69 | Two Strings that lower-case alike find the same County, or both find none. |
| `Counties.LoadedCountyFound` | lib/ansi_codes/county.rb:37-40 | After the load, every well-formed County of a listed State, with codes and names distinct within its State, is found again in its State. That holds by its code String, by the Integer value of its code and by its name, and also when the State is given by any query that finds it. |
| `Counties.FoundIsLoaded` | lib/ansi_codes/county.rb:69-70 | After the load, any County a lookup returns is one of the loaded Counties, and it belongs to the resolved State. |
| `Counties.CountiesOfLoaded` | lib/ansi_codes/county.rb:47-48 | After the load, with codes distinct within each State, `County.all(state)` is exactly that State's Counties in file order. |
| `Counties.All` | lib/ansi_codes/county.rb:47-49 | `County.all` with no argument: the code-hash values of every State in `@counties` order. It has no contract of its own: `Counties.AllLoaded` and `Counties.GroupedMember` state what it lists. |
| `Counties.AllLoaded` | lib/ansi_codes/county.rb:47-49 | After the load, with codes distinct within each State, `County.all` is the Counties grouped by State, with the States in `State.all` order and each State's Counties in file order. |
| `Counties.GroupedMember` | lib/ansi_codes/county.rb:49 | A County is in that grouping exactly when it was loaded and its State is listed. |
| `Counties.LoadedStatesHaveTables` | lib/ansi_codes/county.rb:75 | When the State registry was filled by its load from rows with distinct code keys, every State that `State.find` returns has hashes in the county registry, so no lookup or registration fails for want of them. |

## Left out

- Reading the data files (`File.expand_path`, `CSV.foreach`) is I/O. The loads take the rows as a sequence, already split into their columns.
- `lib/ansi_codes/active_model.rb` is not part of this model. It holds ActiveModel mixins and JSON/XML decoding over libraries not shown.
- The block form of `find` (`yield result if block_given?`) is left out; the result is returned.
- Ruby's `freeze` of each State and County object is represented by `const` fields. The freezing of the hashes and of the class is one `frozen` flag per registry.
- States.StateRegistry.Load: requires an unfrozen registry, because the class body runs once, before anything is frozen.
- Fixnum and Bignum are one unbounded integer. Negative Integers are not modelled: `'%02d'` would print a minus sign.
- Text.IsInteger accepts an optional sign followed by decimal digits. `Integer(value, 10)` also accepts surrounding whitespace, underscores between digits and a `0d` prefix; those Strings are routed by length in this model.
- Text.Lower lower-cases ASCII letters only. Ruby's Unicode case mapping of other letters is not modelled.
- Counties.CountyLookup: reads `/^[0-9]{3}$/` as exactly three digits. Ruby's `^` and `$` are line anchors, so a String such as "001\n" goes to the code hash in Ruby and to the name hash here.
- Counties.SplitDesignation: names are taken to contain no line break. Ruby's `$` also matches before a line break, and `.` does not match one.
- Counties.CountyRegistry.Load: a row whose State cannot be resolved aborts the load with its error, as a value. In Ruby the exception propagates out of the class body and out of the `require`; that propagation is not modelled. As in Ruby, the class keeps the Counties registered so far, and nothing is frozen.
- Object identity replaces Ruby's `hash`/`eql?` for State keys. This agrees with the default behaviour, since neither class overrides them.
- The concrete counts (57 States, 3235 Counties) and any particular row depend on data files that are not part of this model.
- Calling `new` from outside after the load is not modelled beyond the `frozen` refusal.

=== FILE: common.dfy ===
/** Shared vocabulary of both registries: the shapes of a lookup query, the
    index a query is routed to, and the errors a lookup or a load can raise. */
module Common {

  datatype Option<T> = None | Some(value: T)

  /** The exceptions `find` and the load sequence raise, as values. */
  datatype Error =
    | ArgumentError                                 // argument is neither an integer nor a string
    | StateNotFound(lookup: string)                 // "No state found for lookup '<lookup>'"
    | CountyNotFound(lookup: string, stateName: string) // "No county found for lookup '<lookup>' in state <stateName>"
    | NoCountyTable                                 // `@counties[state]` is nil, so indexing it raises NoMethodError
    | Frozen                                        // a registration attempted after the registry was frozen

  datatype Result<T> = Ok(value: T) | Err(error: Error)

  /** The dynamic type of a lookup argument: an Integer, a String, or anything else
      (nil, a Float, a Regexp, a Hash, an Array, ...). */
  datatype Query = QInt(n: nat) | QStr(s: string) | QOther

  /** The index (Ruby hash symbol) a query is routed to. */
  datatype Selector = ByCode | ByName | ByAbbreviation

  /** A routed query: the selected index and the value whose lower-cased form is the key.
      The value is also what a "not found" message quotes. */
  datatype Lookup = Lookup(selector: Selector, value: string)

  /** No object is listed twice: each load builds a new object per row. */
  ghost predicate Distinct<T>(xs: seq<T>)
  {
    forall i, j :: 0 <= i < j < |xs| ==> xs[i] != xs[j]
  }

  /** Appending an object not yet listed keeps the list free of repeats. */
  lemma DistinctSnoc<T>(xs: seq<T>, x: T)
    requires Distinct(xs) && x !in xs
    ensures Distinct(xs + [x])
  {
  }
}

=== FILE: county.dfy ===
/** The county registry (lib/ansi_codes/county.rb): every County is built once
    from a row of the county data file, its name split into a short name and a
    census designation, and it is entered into the two hashes of its own State,
    keyed by lower-cased ANSI code and lower-cased name. `find` first resolves
    the State, then routes the county query to one of that State's hashes. */
module Counties {
  import opened Common
  import opened Text
  import opened OrderedMaps
  import States

  /** The designations the name pattern recognises at the end of a name, after a
      space. The match is case-sensitive; `Islands?` stands for both "Island"
      and "Islands". */
  const Designations: seq<string> :=
    ["city", "Borough", "County", "City and Borough", "Census Area", "Municipality",
     "Parish", "Island", "Islands", "District", "Municipio"]

  /** The pattern with alternatives `ds` can split `name` at index `i`: a space
      there, and one of `ds` from there to the end. */
  predicate IsSplitPoint(name: string, i: nat, ds: seq<string>)
  {
    i < |name| && name[i] == ' ' && OneOf(name[i + 1..], ds)
  }

  /** `d` is one of `ds`: the same as `d in ds` (OneOfIsIn), written as a recursion
      over `ds` so that the solver unfolds one alternative at a time. */
  predicate OneOf(d: string, ds: seq<string>)
  {
    ds != [] && (ds[0] == d || OneOf(d, ds[1..]))
  }

  lemma {:induction false} OneOfIsIn(d: string, ds: seq<string>)
    ensures OneOf(d, ds) <==> d in ds
  {
    if ds != [] {
      OneOfIsIn(d, ds[1..]);
      assert ds == [ds[0]] + ds[1..];
    }
  }

  /** The last split point below `hi`, if there is one. The greedy `(.*)` of the
      pattern backtracks from the longest prefix, so this is where it splits. */
  function LastSplitPoint(name: string, hi: nat, ds: seq<string>): (r: Option<nat>)
    requires hi <= |name|
    ensures r.Some? ==> r.value < hi && IsSplitPoint(name, r.value, ds)
    ensures r.Some? ==> forall j: nat :: r.value < j < hi ==> !IsSplitPoint(name, j, ds)
    ensures r.None? ==> forall j: nat :: j < hi ==> !IsSplitPoint(name, j, ds)
  {
    if hi == 0 then None
    else if IsSplitPoint(name, hi - 1, ds) then Some(hi - 1)
    else LastSplitPoint(name, hi - 1, ds)
  }

  /** `short_name` and `designation` of a County. */
  datatype NameParts = NameParts(shortName: string, designation: string)

  /** `name.match(Designations)`: on a match, the first group is the short name and
      the second the designation; without a match the short name is the whole
      name and the designation is empty. */
  function SplitDesignation(name: string): (r: NameParts)
    ensures r.designation != "" <==> exists i: nat :: IsSplitPoint(name, i, Designations)
    ensures r.designation != "" ==>
      && name == r.shortName + " " + r.designation
      && r.designation in Designations
      && IsSplitPoint(name, |r.shortName|, Designations)
      && forall j: nat :: |r.shortName| < j ==> !IsSplitPoint(name, j, Designations)
    ensures r.designation == "" ==> r.shortName == name
    ensures |r.shortName| <= |name|
    ensures |name| > 0 ==> |r.designation| <= |name| - 1
  {
    match LastSplitPoint(name, |name|, Designations)
    case Some(i) =>
      SplitAround(name, i);
      OneOfIsIn(name[i + 1..], Designations);
      NameParts(name[..i], name[i + 1..])
    case None => NameParts(name, "")
  }

  /** At a split point the name is the part before it, a space and a non-empty
      designation. */
  lemma SplitAround(name: string, i: nat)
    requires IsSplitPoint(name, i, Designations)
    ensures name == name[..i] + " " + name[i + 1..]
    ensures name[i + 1..] != ""
  {
    DesignationLengths();
    OneOfLength(name[i + 1..], Designations, 4);
  }

  /** One of a list of strings that all have `n` or more characters has too. */
  lemma {:induction false} OneOfLength(d: string, ds: seq<string>, n: nat)
    requires OneOf(d, ds)
    requires forall k :: 0 <= k < |ds| ==> |ds[k]| >= n
    ensures |d| >= n
  {
    if ds[0] != d {
      OneOfLength(d, ds[1..], n);
    }
  }

  /** Every designation has at least four characters, and "city" is the only one
      with exactly four. */
  lemma DesignationLengths()
    ensures forall k :: 0 <= k < |Designations| ==> |Designations[k]| >= 4
    ensures forall k :: 0 <= k < |Designations| && |Designations[k]| == 4 ==> Designations[k] == "city"
  {
  }

  /** "City and Borough" is among the alternatives, but never the designation:
      its own inner space before "Borough" is a later split point, and the
      greedy prefix takes it. */
  lemma CityAndBoroughUnreachable(name: string)
    ensures SplitDesignation(name).designation != "City and Borough"
  {
    var r := SplitDesignation(name);
    if r.designation == "City and Borough" {
      InnerSplitPoint(name, |r.shortName|);
      assert false;
    }
  }

  /** Where "City and Borough" follows a space, so does "Borough", nine
      characters later. */
  lemma InnerSplitPoint(name: string, i: nat)
    requires i < |name| && name[i + 1..] == "City and Borough"
    ensures IsSplitPoint(name, i + 9, Designations)
  {
    assert name[i + 10..] == name[i + 1..][9..];
    assert name[i + 9] == name[i + 1..][8];
    assert name[i + 10..] == Designations[1];
    OneOfIsIn(name[i + 10..], Designations);
  }

  /** A space followed by the `k`-th designation up to the end is a split point. */
  lemma DesignationSplitPoint(name: string, i: nat, k: nat)
    requires i < |name| && name[i] == ' ' && k < |Designations| && name[i + 1..] == Designations[k]
    ensures IsSplitPoint(name, i, Designations)
  {
    OneOfIsIn(name[i + 1..], Designations);
  }

  /** A split point with no space after it is where the name splits. */
  lemma SplitAtLastSpace(name: string, i: nat)
    requires IsSplitPoint(name, i, Designations)
    requires forall j :: i < j < |name| ==> name[j] != ' '
    ensures SplitDesignation(name) == NameParts(name[..i], name[i + 1..])
  {
    var r := SplitDesignation(name);
    assert r.designation != "";
    assert |r.shortName| == i;
  }

  /** A name made of a short name, a space and a designation without spaces
      splits into those two parts. */
  lemma SplitBeforeDesignation(name: string, shortName: string, k: nat)
    requires k < |Designations| && name == shortName + " " + Designations[k]
    requires forall j :: 0 <= j < |Designations[k]| ==> Designations[k][j] != ' '
    ensures SplitDesignation(name) == NameParts(shortName, Designations[k])
  {
    var i := |shortName|;
    assert name[..i] == shortName && name[i + 1..] == Designations[k];
    DesignationSplitPoint(name, i, k);
    forall j | i < j < |name| ensures name[j] != ' ' {
      assert name[j] == Designations[k][j - i - 1];
    }
    SplitAtLastSpace(name, i);
  }

  /** How some names of the county data file split: the usual case, a name that
      ends in "City and Borough", a lower-case "city", and a name without any
      designation. Each name is a parameter fixed by its `requires`, rather than a
      literal in the `ensures`, so that the solver does not evaluate the literal in full. */
  lemma SplitCounty(a: string)
    requires a == "Autauga County"
    ensures SplitDesignation(a) == NameParts("Autauga", "County")
  {
    assert a == "Autauga" + " " + Designations[2];
    SplitBeforeDesignation(a, "Autauga", 2);
  }

  lemma SplitCityAndBorough(j: string)
    requires j == "Juneau City and Borough"
    ensures SplitDesignation(j) == NameParts("Juneau City and", "Borough")
  {
    assert j == "Juneau City and" + " " + Designations[1];
    SplitBeforeDesignation(j, "Juneau City and", 1);
  }

  lemma SplitLowerCaseCity(n: string)
    requires n == "Norfolk city"
    ensures SplitDesignation(n) == NameParts("Norfolk", "city")
  {
    assert n == "Norfolk" + " " + Designations[0];
    SplitBeforeDesignation(n, "Norfolk", 0);
  }

  lemma SplitNoDesignation(c: string)
    requires c == "Carson City"
    ensures SplitDesignation(c) == NameParts(c, "")
  {
    assert !IsSplitPoint(c, 6, Designations) by {
      assert c[7..] == "City";
      OneOfIsIn(c[7..], Designations);
      DesignationLengths();
    }
    forall i: nat | i < |c| && i != 6 ensures !IsSplitPoint(c, i, Designations) {
      assert c[i] != ' ';
    }
  }

  /** A county or county-equivalent. Its attributes never change once it exists;
      the short name and the designation are the split of the name, for every County. */
  class County {
    const state: States.State   // the State it belongs to
    const ansiCode: string      // three-digit ANSI code, unique within its State
    const name: string          // full name
    const shortName: string := SplitDesignation(name).shortName      // the name without its designation
    const designation: string := SplitDesignation(name).designation  // "County", "Parish", "Municipio", ..., or ""

    constructor (state: States.State, ansiCode: string, name: string)
      ensures this.state == state && this.ansiCode == ansiCode && this.name == name
      ensures NameParts(shortName, designation) == SplitDesignation(name)
    {
      this.state := state;
      this.ansiCode := ansiCode;
      this.name := name;
    }
  }

  /** The key a County is stored under in one of its State's hashes. */
  function Key(selector: Selector, c: County): string
  {
    if selector == ByCode then Lower(c.ansiCode) else Lower(c.name)
  }

  function CodeKey(c: County): string { Key(ByCode, c) }
  function NameKey(c: County): string { Key(ByName, c) }

  /** What the data file promises of a County: a three-digit code and a name of
      at least four characters. */
  predicate WellFormed(c: County)
  {
    ThreeDigits(c.ansiCode) && |c.name| >= 4
  }

  /** `@counties[state]`: one State's ANSI-code and name hashes. */
  datatype CountyTables = CountyTables(byCode: OrderedMap<string, County>, byName: OrderedMap<string, County>)
  {
    /** The assignments of `County#initialize` into its State's hashes. */
    function Add(c: County): CountyTables
    {
      CountyTables(byCode.Put(CodeKey(c), c), byName.Put(NameKey(c), c))
    }

    /** `@counties[state][selector]`; county queries are only routed to these two. */
    function Table(selector: Selector): OrderedMap<string, County>
    {
      if selector == ByCode then byCode else byName
    }
  }

  /** `{ ansi_code: {}, name: {} }` */
  function NoCounties(): CountyTables
  {
    CountyTables(Empty(), Empty())
  }

  /** `Hash[State.all.map { |state| [state, { ansi_code: {}, name: {} }] }]` */
  function Blank(ss: seq<States.State>): OrderedMap<States.State, CountyTables>
  {
    if ss == [] then Empty()
    else Blank(ss[..|ss| - 1]).Put(ss[|ss| - 1], NoCounties())
  }

  /** Storing `c` in its State's hashes. Without hashes for its State (a State
      that `State.all` did not list) nothing is stored; the registry reports
      that case as an error. */
  function AddCounty(m: OrderedMap<States.State, CountyTables>, c: County): OrderedMap<States.State, CountyTables>
  {
    if c.state in m.entries then m.Put(c.state, m.entries[c.state].Add(c)) else m
  }

  /** What registering each of `cs`, in order, makes of the hashes. */
  function AddCounties(m: OrderedMap<States.State, CountyTables>, cs: seq<County>): OrderedMap<States.State, CountyTables>
  {
    if cs == [] then m else AddCounty(AddCounties(m, cs[..|cs| - 1]), cs[|cs| - 1])
  }

  /** The first argument of `County.find`: a State, or anything `State.find` takes. */
  datatype StateArg = AState(state: States.State) | AQuery(query: Query)

  /** `state.is_a?(State) ? state : State.find(state)` */
  function ResolveState(states: States.StateTables, arg: StateArg): (r: Result<States.State>)
    ensures arg.AState? ==> r == Ok(arg.state)
    ensures arg.AQuery? ==> r == states.Find(arg.query)
  {
    match arg
    case AState(s) => Ok(s)
    case AQuery(q) => states.Find(q)
  }

  /** The routing of the county argument of `County.find`: an Integer is formatted
      with `'%03d'` and goes to the ANSI-code hash, as does a String of exactly
      three digits; any other String goes to the name hash; anything else is an
      ArgumentError. */
  function CountyLookup(q: Query): (r: Result<Lookup>)
    ensures q.QOther? <==> r == Err(ArgumentError)
    ensures r.Ok? ==> (r.value.selector == ByCode <==> q.QInt? || ThreeDigits(q.s))
    ensures r.Ok? ==> r.value.selector != ByAbbreviation
    ensures q.QInt? ==> r.Ok? && r.value.value == Pad(q.n, 3) && |r.value.value| >= 3
    ensures q.QStr? ==> r.Ok? && r.value.value == q.s
  {
    match q
    case QInt(n) => Ok(Lookup(ByCode, Pad(n, 3)))
    case QStr(s) => if ThreeDigits(s) then Ok(Lookup(ByCode, s)) else Ok(Lookup(ByName, s))
    case QOther => Err(ArgumentError)
  }

  /** `County.find(state, county)`: resolve the State (its errors come first), route
      the county query, then look the lower-cased value up in that State's hash.
      A State without hashes is an error; a missing key is a CountyNotFound that
      quotes the routed value and the State's name. */
  function Find(states: States.StateTables, m: OrderedMap<States.State, CountyTables>, arg: StateArg, q: Query): (r: Result<County>)
    ensures ResolveState(states, arg).Err? ==> r == Err(ResolveState(states, arg).error)
    ensures ResolveState(states, arg).Ok? ==>
      var s := ResolveState(states, arg).value;
      && (q.QOther? ==> r == Err(ArgumentError))
      && (q.QOther? || s in m.entries || r == Err(NoCountyTable))
      && (CountyLookup(q).Ok? && s in m.entries ==>
            var l := CountyLookup(q).value;
            var key := Lower(l.value);
            && (r.Ok? <==> key in m.entries[s].Table(l.selector).entries)
            && (r.Ok? ==> m.entries[s].Table(l.selector).Get(key) == Some(r.value))
            && (r.Err? ==> r.error == CountyNotFound(l.value, s.name)))
  {
    match ResolveState(states, arg)
    case Err(e) => Err(e)
    case Ok(s) =>
      match CountyLookup(q)
      case Err(e) => Err(e)
      case Ok(l) =>
        if s !in m.entries then Err(NoCountyTable)
        else
          var t := m.entries[s].Table(l.selector);
          var key := Lower(l.value);
          if key in t.entries then Ok(t.entries[key]) else Err(CountyNotFound(l.value, s.name))
  }

  /** `County.all(state)`, and so `State#counties`: the values of the State's
      ANSI-code hash, in insertion order. */
  function CountiesOf(m: OrderedMap<States.State, CountyTables>, s: States.State): (r: Result<seq<County>>)
    ensures r.Ok? <==> s in m.entries
    ensures r.Err? ==> r.error == NoCountyTable
  {
    if s in m.entries then Ok(m.entries[s].byCode.Values()) else Err(NoCountyTable)
  }

  /** `County.all`: the ANSI-code hash values of every State, State after State in
      the order of `@counties`. */
  function All(m: OrderedMap<States.State, CountyTables>): seq<County>
  {
    Flatten(m.Values())
  }

  function Flatten(ts: seq<CountyTables>): seq<County>
  {
    if ts == [] then [] else Flatten(ts[..|ts| - 1]) + ts[|ts| - 1].byCode.Values()
  }

  /** A row of the county data file: its `state_ansi`, `county_ansi` and
      `county_name` columns. */
  datatype CountyRow = CountyRow(stateAnsi: string, countyAnsi: string, countyName: string)

  /** The State a row's County belongs to: `State.find(state_ansi)`, which must
      have hashes in the registry. */
  function RowState(states: States.StateTables, m: OrderedMap<States.State, CountyTables>, row: CountyRow): (r: Result<States.State>)
    ensures r.Ok? <==> states.Find(QStr(row.stateAnsi)).Ok? && states.Find(QStr(row.stateAnsi)).value in m.entries
    ensures r.Ok? ==> r.value == states.Find(QStr(row.stateAnsi)).value
    ensures r.Err? ==> r.error == (if states.Find(QStr(row.stateAnsi)).Err? then states.Find(QStr(row.stateAnsi)).error else NoCountyTable)
  {
    match states.Find(QStr(row.stateAnsi))
    case Err(e) => Err(e)
    case Ok(s) => if s in m.entries then Ok(s) else Err(NoCountyTable)
  }

  /** County `c` was built from `row`. */
  predicate BuiltFrom(states: States.StateTables, c: County, row: CountyRow)
  {
    states.Find(QStr(row.stateAnsi)) == Ok(c.state) && c.ansiCode == row.countyAnsi && c.name == row.countyName
  }

  /** The County class itself: the frozen State registry it resolves States in,
      its `@counties`, and whether the class has been frozen. */
  class CountyRegistry {
    const states: States.StateTables
    var counties: OrderedMap<States.State, CountyTables>
    var frozen: bool

    /** `@counties = Hash[State.all.map { ... }]`: empty hashes for every State. */
    constructor (states: States.StateTables)
      ensures this.states == states && counties == Blank(states.All()) && !frozen
    {
      this.states := states;
      counties := Blank(states.All());
      frozen := false;
    }

    /** `County.new(state_ansi, county_ansi, name)`: resolve the State, build the
        County, and store it in its State's hashes. A State that is not found, or
        has no hashes, is an error before anything is stored; storing into a
        frozen registry is refused. */
    method Register(row: CountyRow) returns (r: Result<County>)
      modifies this
      ensures frozen == old(frozen)
      ensures RowState(states, old(counties), row).Err? ==>
        r == Err(RowState(states, old(counties), row).error) && counties == old(counties)
      ensures RowState(states, old(counties), row).Ok? && old(frozen) ==>
        r == Err(Frozen) && counties == old(counties)
      ensures RowState(states, old(counties), row).Ok? && !old(frozen) ==>
        && r.Ok? && fresh(r.value) && BuiltFrom(states, r.value, row)
        && counties == AddCounty(old(counties), r.value)
    {
      var s := RowState(states, counties, row);
      if s.Err? {
        return Err(s.error);
      }
      if frozen {
        return Err(Frozen);
      }
      var c := new County(s.value, row.countyAnsi, row.countyName);
      counties := AddCounty(counties, c);
      r := Ok(c);
    }

    /** The class body: register one County per row, in file order, then freeze.
        The first row that cannot be registered aborts the load: `loaded` holds
        the Counties registered before it, and `failure` its error. */
    method Load(rows: seq<CountyRow>) returns (loaded: seq<County>, failure: Option<Error>)
      requires !frozen
      modifies this
      ensures |loaded| <= |rows|
      ensures forall i :: 0 <= i < |loaded| ==> BuiltFrom(states, loaded[i], rows[i])
      ensures forall c :: c in loaded ==> fresh(c)
      ensures Distinct(loaded)
      ensures counties == AddCounties(old(counties), loaded)
      ensures failure.None? <==> |loaded| == |rows|
      ensures failure.Some? ==> RowState(states, counties, rows[|loaded|]) == Err(failure.value)
      ensures frozen <==> failure.None?
    {
      loaded, failure := [], None;
      for i := 0 to |rows|
        invariant !frozen && |loaded| == i
        invariant BuiltFromRows(states, loaded, rows[..i])
        invariant forall c :: c in loaded ==> fresh(c)
        invariant Distinct(loaded)
        invariant counties == AddCounties(old(counties), loaded)
      {
        var r := Register(rows[i]);
        if r.Err? {
          failure := Some(r.error);
          break;
        }
        AddCountiesSnoc(old(counties), loaded, r.value);
        DistinctSnoc(loaded, r.value);
        BuiltFromRowsSnoc(states, loaded, rows, r.value);
        loaded := loaded + [r.value];
      }
      BuiltFromRowsAt(states, loaded, rows[..|loaded|]);
      if failure.None? {
        frozen := true;
      }
    }
  }

  /** Each of `cs` was built from the row at its position in `rows`. Stated by
      recursion so that the solver unfolds it one County at a time. */
  ghost predicate BuiltFromRows(states: States.StateTables, cs: seq<County>, rows: seq<CountyRow>)
    decreases |cs|
  {
    && |cs| == |rows|
    && (cs != [] ==>
          && BuiltFromRows(states, cs[..|cs| - 1], rows[..|rows| - 1])
          && BuiltFrom(states, cs[|cs| - 1], rows[|rows| - 1]))
  }

  /** A County built from the next row extends the Counties built so far. */
  lemma BuiltFromRowsSnoc(states: States.StateTables, cs: seq<County>, rows: seq<CountyRow>, c: County)
    requires |cs| < |rows| && BuiltFromRows(states, cs, rows[..|cs|]) && BuiltFrom(states, c, rows[|cs|])
    ensures BuiltFromRows(states, cs + [c], rows[..|cs| + 1])
  {
    assert (cs + [c])[..|cs|] == cs;
    assert rows[..|cs| + 1][..|cs|] == rows[..|cs|];
  }

  lemma {:induction false} BuiltFromRowsAt(states: States.StateTables, cs: seq<County>, rows: seq<CountyRow>)
    requires BuiltFromRows(states, cs, rows)
    ensures forall i :: 0 <= i < |cs| ==> BuiltFrom(states, cs[i], rows[i])
    decreases |cs|
  {
    if cs != [] {
      BuiltFromRowsAt(states, cs[..|cs| - 1], rows[..|rows| - 1]);
    }
  }

  /** Registering one more County is one more AddCounty. */
  lemma AddCountiesSnoc(m: OrderedMap<States.State, CountyTables>, cs: seq<County>, c: County)
    ensures AddCounties(m, cs + [c]) == AddCounty(AddCounties(m, cs), c)
  {
    assert (cs + [c])[..|cs|] == cs;
  }

  /** The initial hashes hold exactly the listed States, each with empty hashes. */
  lemma {:induction false} BlankTables(ss: seq<States.State>, s: States.State)
    ensures s in Blank(ss).entries <==> s in ss
    ensures s in ss ==> Blank(ss).entries[s] == NoCounties()
  {
    if ss != [] {
      BlankTables(ss[..|ss| - 1], s);
      assert ss == ss[..|ss| - 1] + [ss[|ss| - 1]];
    }
  }

  /** With distinct States, the initial hash lists them in `State.all` order. */
  lemma {:induction false} BlankKeys(ss: seq<States.State>)
    requires forall i, j :: 0 <= i < j < |ss| ==> ss[i] != ss[j]
    ensures Blank(ss).keys == ss
  {
    if ss != [] {
      var prefix := ss[..|ss| - 1];
      BlankKeys(prefix);
      BlankTables(prefix, ss[|ss| - 1]);
    }
  }

  /** Registering a County changes no other State's hashes and adds no State. */
  lemma AddCountyKeepsOthers(m: OrderedMap<States.State, CountyTables>, c: County, s: States.State)
    requires s != c.state
    ensures AddCounty(m, c).Get(s) == m.Get(s)
    ensures AddCounty(m, c).keys == m.keys && AddCounty(m, c).entries.Keys == m.entries.Keys
  {
  }

  /** Registering Counties never adds or removes a State. */
  lemma {:induction false} AddCountiesKeepsStates(m: OrderedMap<States.State, CountyTables>, cs: seq<County>)
    ensures AddCounties(m, cs).keys == m.keys
    ensures AddCounties(m, cs).entries.Keys == m.entries.Keys
  {
    if cs != [] {
      AddCountiesKeepsStates(m, cs[..|cs| - 1]);
    }
  }

  /** The Counties of `cs` that belong to `s`, in order. */
  function InState(cs: seq<County>, s: States.State): seq<County>
  {
    if cs == [] then []
    else InState(cs[..|cs| - 1], s) + (if cs[|cs| - 1].state == s then [cs[|cs| - 1]] else [])
  }

  lemma {:induction false} InStateMember(cs: seq<County>, s: States.State, c: County)
    ensures c in InState(cs, s) <==> c in cs && c.state == s
  {
    if cs != [] {
      var prefix := cs[..|cs| - 1];
      InStateMember(prefix, s, c);
      assert cs == prefix + [cs[|cs| - 1]];
    }
  }

  /** The hashes of State `s` after registering `cs` into empty ones: the
      Counties of `s`, stored in order under their code and name keys. */
  function TablesOf(cs: seq<County>, s: States.State): CountyTables
  {
    CountyTables(PutAll(Empty(), InState(cs, s), CodeKey), PutAll(Empty(), InState(cs, s), NameKey))
  }

  /** Registering `cs` fills a State's empty hashes with exactly its own Counties. */
  lemma {:induction false} AddCountiesTables(m: OrderedMap<States.State, CountyTables>, cs: seq<County>, s: States.State)
    requires s in m.entries && m.entries[s] == NoCounties()
    ensures s in AddCounties(m, cs).entries
    ensures AddCounties(m, cs).entries[s] == TablesOf(cs, s)
  {
    if cs != [] {
      var prefix, c := cs[..|cs| - 1], cs[|cs| - 1];
      AddCountiesTables(m, prefix, s);
      var p := AddCounties(m, prefix);
      assert AddCounties(m, cs) == AddCounty(p, c);
      if c.state == s {
        assert InState(cs, s) == InState(prefix, s) + [c];
        PutAllSnoc(Empty(), InState(prefix, s), c, CodeKey);
        PutAllSnoc(Empty(), InState(prefix, s), c, NameKey);
        assert AddCounty(p, c).entries[s] == TablesOf(prefix, s).Add(c);
      } else {
        assert InState(cs, s) == InState(prefix, s);
        assert AddCounty(p, c).entries[s] == p.entries[s];
      }
    }
  }

  /** The hashes hold exactly what registering `cs` into the initial hashes of
      the States `ss` stores. */
  ghost predicate LoadedFrom(m: OrderedMap<States.State, CountyTables>, ss: seq<States.State>, cs: seq<County>)
  {
    m == AddCounties(Blank(ss), cs)
  }

  /** Within each listed State, no two Counties share a code, ignoring case. */
  ghost predicate DistinctCodesPerState(ss: seq<States.State>, cs: seq<County>)
  {
    forall s :: s in ss ==> DistinctKeys(InState(cs, s), CodeKey)
  }

  /** Within each listed State, no two Counties share a code or a name, ignoring case. */
  ghost predicate DistinctPerState(ss: seq<States.State>, cs: seq<County>)
  {
    DistinctCodesPerState(ss, cs) && forall s :: s in ss ==> DistinctKeys(InState(cs, s), NameKey)
  }

  /** After the load, the hashes of a listed State are the ones its own Counties fill. */
  lemma LoadedTables(m: OrderedMap<States.State, CountyTables>, ss: seq<States.State>, cs: seq<County>, s: States.State)
    requires LoadedFrom(m, ss, cs) && s in ss
    ensures s in m.entries && m.entries[s] == TablesOf(cs, s)
  {
    BlankTables(ss, s);
    AddCountiesTables(Blank(ss), cs, s);
  }

  /** An Integer county query is the String query of its `'%03d'` form, as long
      as that form has three digits: `find(s, 1)` is `find(s, '001')`. */
  lemma FindIntegerIsPaddedCode(states: States.StateTables, m: OrderedMap<States.State, CountyTables>, arg: StateArg, n: nat)
    requires n < 1000
    ensures Find(states, m, arg, QInt(n)) == Find(states, m, arg, QStr(Pad(n, 3)))
  {
    assert Pow10(3) == 1000;
    assert ThreeDigits(Pad(n, 3));
  }

  /** An Integer of four or more digits is looked up under its full decimal form
      in the ANSI-code hash, where every key has three characters, so it is never
      found: `find(45, 1000)` fails quoting "1000". */
  lemma LargeIntegerNotFound(states: States.StateTables, m: OrderedMap<States.State, CountyTables>, arg: StateArg, n: nat)
    requires n >= 1000
    requires ResolveState(states, arg).Ok? && ResolveState(states, arg).value in m.entries
    requires forall k :: k in m.entries[ResolveState(states, arg).value].byCode.entries ==> |k| == 3
    ensures Find(states, m, arg, QInt(n)) == Err(CountyNotFound(Pad(n, 3), ResolveState(states, arg).value.name))
  {
    assert Pow10(3) == 1000;
  }

  /** County lookup ignores case: two Strings that lower-case alike find the same
      County, or both find none. */
  lemma FindIgnoresCase(states: States.StateTables, m: OrderedMap<States.State, CountyTables>, arg: StateArg, a: string, b: string)
    requires Lower(a) == Lower(b)
    ensures Find(states, m, arg, QStr(a)).Ok? <==> Find(states, m, arg, QStr(b)).Ok?
    ensures Find(states, m, arg, QStr(a)).Ok? ==> Find(states, m, arg, QStr(a)).value == Find(states, m, arg, QStr(b)).value
  {
    IntegerIgnoresCase(a);
    IntegerIgnoresCase(b);
  }

  /** After the load, every well-formed County of a listed State, with codes and
      names distinct within its State, is found again in its State by its code
      (as a String and as an Integer) and by its name, and also when the State is
      given by a query that finds it. */
  lemma LoadedCountyFound(states: States.StateTables, m: OrderedMap<States.State, CountyTables>,
                          ss: seq<States.State>, cs: seq<County>, i: nat, sq: Query)
    requires LoadedFrom(m, ss, cs) && DistinctPerState(ss, cs)
    requires i < |cs| && cs[i].state in ss && WellFormed(cs[i])
    ensures Find(states, m, AState(cs[i].state), QStr(cs[i].ansiCode)) == Ok(cs[i])
    ensures Find(states, m, AState(cs[i].state), QInt(DecimalValue(cs[i].ansiCode))) == Ok(cs[i])
    ensures Find(states, m, AState(cs[i].state), QStr(cs[i].name)) == Ok(cs[i])
    ensures states.Find(sq) == Ok(cs[i].state) ==>
      && Find(states, m, AQuery(sq), QStr(cs[i].ansiCode)) == Ok(cs[i])
      && Find(states, m, AQuery(sq), QInt(DecimalValue(cs[i].ansiCode))) == Ok(cs[i])
      && Find(states, m, AQuery(sq), QStr(cs[i].name)) == Ok(cs[i])
  {
    var c, s := cs[i], cs[i].state;
    LoadedTables(m, ss, cs, s);
    InStateMember(cs, s, c);
    PutAllFindsMember(Empty(), InState(cs, s), CodeKey, c);
    PutAllFindsMember(Empty(), InState(cs, s), NameKey, c);
    FoundByCode(states, m, c, AState(s));
    FoundByName(states, m, c, AState(s));
    if states.Find(sq) == Ok(s) {
      FoundByCode(states, m, c, AQuery(sq));
      FoundByName(states, m, c, AQuery(sq));
    }
  }

  /** A well-formed County stored under its code key in its State's hashes is
      found by its code, as a String and as an Integer. */
  lemma FoundByCode(states: States.StateTables, m: OrderedMap<States.State, CountyTables>, c: County, arg: StateArg)
    requires WellFormed(c) && ResolveState(states, arg) == Ok(c.state)
    requires c.state in m.entries && m.entries[c.state].byCode.Get(CodeKey(c)) == Some(c)
    ensures Find(states, m, arg, QStr(c.ansiCode)) == Ok(c)
    ensures Find(states, m, arg, QInt(DecimalValue(c.ansiCode))) == Ok(c)
  {
    PadRoundTrip(c.ansiCode);
    DecimalValueBound(c.ansiCode);
    assert Pow10(3) == 1000;
    FindIntegerIsPaddedCode(states, m, arg, DecimalValue(c.ansiCode));
  }

  /** A well-formed County stored under its name key in its State's hashes is
      found by its name: a name of four or more characters is routed to the
      name hash. */
  lemma FoundByName(states: States.StateTables, m: OrderedMap<States.State, CountyTables>, c: County, arg: StateArg)
    requires WellFormed(c) && ResolveState(states, arg) == Ok(c.state)
    requires c.state in m.entries && m.entries[c.state].byName.Get(NameKey(c)) == Some(c)
    ensures Find(states, m, arg, QStr(c.name)) == Ok(c)
  {
  }

  /** A successful lookup after the load returns one of the loaded Counties, and
      one that belongs to the resolved State. */
  lemma FoundIsLoaded(states: States.StateTables, m: OrderedMap<States.State, CountyTables>,
                      ss: seq<States.State>, cs: seq<County>, arg: StateArg, q: Query)
    requires LoadedFrom(m, ss, cs)
    requires Find(states, m, arg, q).Ok?
    ensures Find(states, m, arg, q).value in cs
    ensures Find(states, m, arg, q).value.state == ResolveState(states, arg).value
  {
    var s := ResolveState(states, arg).value;
    var l := CountyLookup(q).value;
    var key := Lower(l.value);
    AddCountiesKeepsStates(Blank(ss), cs);
    BlankTables(ss, s);
    LoadedTables(m, ss, cs, s);
    var c := Find(states, m, arg, q).value;
    if l.selector == ByCode {
      PutAllOnlyStores(Empty(), InState(cs, s), CodeKey, key);
    } else {
      PutAllOnlyStores(Empty(), InState(cs, s), NameKey, key);
    }
    InStateMember(cs, s, c);
  }

  /** `County.all(state)` after the load lists the State's own Counties, in file order. */
  lemma CountiesOfLoaded(m: OrderedMap<States.State, CountyTables>, ss: seq<States.State>, cs: seq<County>, s: States.State)
    requires LoadedFrom(m, ss, cs) && DistinctCodesPerState(ss, cs) && s in ss
    ensures CountiesOf(m, s) == Ok(InState(cs, s))
  {
    LoadedTables(m, ss, cs, s);
    PutAllValues(InState(cs, s), CodeKey);
  }

  /** The Counties of each State of `ss` in turn. */
  function GroupedByState(ss: seq<States.State>, cs: seq<County>): seq<County>
  {
    if ss == [] then [] else GroupedByState(ss[..|ss| - 1], cs) + InState(cs, ss[|ss| - 1])
  }

  /** A County is listed by State exactly when it was loaded and its State is listed. */
  lemma {:induction false} GroupedMember(ss: seq<States.State>, cs: seq<County>, c: County)
    ensures c in GroupedByState(ss, cs) <==> c in cs && c.state in ss
  {
    if ss != [] {
      var prefix := ss[..|ss| - 1];
      GroupedMember(prefix, cs, c);
      InStateMember(cs, ss[|ss| - 1], c);
      assert ss == prefix + [ss[|ss| - 1]];
    }
  }

  /** Every County, and so every County of `County.all`, has a short name no longer
      than its name and a designation shorter than its name. */
  lemma NamePartsBounded(c: County)
    ensures |c.shortName| <= |c.name|
    ensures c.name != "" ==> |c.designation| <= |c.name| - 1
  {
  }

  /** `County.all` after the load: the Counties grouped by State, the States in
      `State.all` order and each State's Counties in file order. */
  lemma AllLoaded(m: OrderedMap<States.State, CountyTables>, ss: seq<States.State>, cs: seq<County>)
    requires LoadedFrom(m, ss, cs) && DistinctCodesPerState(ss, cs)
    requires forall i, j :: 0 <= i < j < |ss| ==> ss[i] != ss[j]
    ensures All(m) == GroupedByState(ss, cs)
  {
    BlankKeys(ss);
    AddCountiesKeepsStates(Blank(ss), cs);
    forall i | 0 <= i < |ss| ensures ss[i] in m.entries && m.entries[ss[i]].byCode.Values() == InState(cs, ss[i]) {
      LoadedTables(m, ss, cs, ss[i]);
      PutAllValues(InState(cs, ss[i]), CodeKey);
    }
    ValuesOfStored(m.keys, m.entries);
    FlattenGrouped(m.Values(), ss, cs);
  }

  lemma {:induction false} FlattenGrouped(ts: seq<CountyTables>, ss: seq<States.State>, cs: seq<County>)
    requires |ts| == |ss|
    requires forall i :: 0 <= i < |ss| ==> ts[i].byCode.Values() == InState(cs, ss[i])
    ensures Flatten(ts) == GroupedByState(ss, cs)
  {
    if ts != [] {
      FlattenGrouped(ts[..|ts| - 1], ss[..|ss| - 1], cs);
    }
  }

  /** Under a State registry filled by its load from rows with distinct codes,
      every State `State.find` returns has hashes in the county registry, so a
      county lookup or registration never fails for want of them. (With a repeated
      code, the later State replaces the earlier one in the code hash, so the
      earlier one is missing from `State.all` and has no hashes, yet is still
      found by its name or abbreviation.) */
  lemma LoadedStatesHaveTables(t: States.StateTables, sts: seq<States.State>,
                               m: OrderedMap<States.State, CountyTables>, q: Query)
    requires States.LoadedFrom(t, sts) && DistinctKeys(sts, States.CodeKey)
    requires m.entries.Keys == Blank(t.All()).entries.Keys
    requires t.Find(q).Ok?
    ensures t.Find(q).value in m.entries
  {
    States.FoundIsLoaded(t, sts, q);
    States.AllInLoadOrder(t, sts);
    BlankTables(t.All(), t.Find(q).value);
  }
}

=== FILE: ordered_map.dfy ===
/** Ruby's Hash as the registries use it: a map that remembers the order in which
    its keys were first inserted. Storing under a key that is already present
    replaces the value and keeps the key where it was; `values` lists the values
    in key order. */
module OrderedMaps {
  import opened Common

  datatype OrderedMap<K(==), V> = OrderedMap(keys: seq<K>, entries: map<K, V>)
  {
    /** The keys are listed once each, and they are exactly the keys of the map. */
    ghost predicate Valid()
    {
      && (forall i, j :: 0 <= i < j < |keys| ==> keys[i] != keys[j])
      && (forall k :: k in entries ==> k in keys)
      && (forall i :: 0 <= i < |keys| ==> keys[i] in entries)
    }

    /** `hash[k]`: the stored value, or nil. */
    function Get(k: K): Option<V>
    {
      if k in entries then Some(entries[k]) else None
    }

    /** `hash[k] = v` */
    function Put(k: K, v: V): OrderedMap<K, V>
    {
      OrderedMap(if k in entries then keys else keys + [k], entries[k := v])
    }

    /** `hash.values`: the values of the listed keys, in insertion order. */
    function Values(): seq<V>
    {
      ValuesOf(keys, entries)
    }
  }

  function ValuesOf<K(==), V>(ks: seq<K>, m: map<K, V>): seq<V>
  {
    if ks == [] then []
    else ValuesOf(ks[..|ks| - 1], m) + (if ks[|ks| - 1] in m then [m[ks[|ks| - 1]]] else [])
  }

  /** `{}` */
  function Empty<K(==), V>(): OrderedMap<K, V>
  {
    OrderedMap([], map[])
  }

  /** Storing a value keeps the hash well formed, puts the value under its key,
      leaves every other key alone, and appends the key only if it is new. */
  lemma PutSpec<K, V>(m: OrderedMap<K, V>, k: K, v: V)
    requires m.Valid()
    ensures m.Put(k, v).Valid()
    ensures m.Put(k, v).Get(k) == Some(v)
    ensures forall k' :: k' in m.entries && k' != k ==> m.Put(k, v).Get(k') == m.Get(k')
    ensures m.Put(k, v).keys == if k in m.entries then m.keys else m.keys + [k]
  {
  }

  /** When every listed key is stored, `values` has one value per key, in key order. */
  lemma {:induction false} ValuesOfStored<K, V>(ks: seq<K>, m: map<K, V>)
    requires forall i :: 0 <= i < |ks| ==> ks[i] in m
    ensures |ValuesOf(ks, m)| == |ks|
    ensures forall i :: 0 <= i < |ks| ==> ValuesOf(ks, m)[i] == m[ks[i]]
  {
    if ks != [] {
      ValuesOfStored(ks[..|ks| - 1], m);
    }
  }

  /** Storing each of `vs`, in order, under the key `key` computes for it. */
  function PutAll<K(==), V>(m: OrderedMap<K, V>, vs: seq<V>, key: V -> K): OrderedMap<K, V>
    decreases |vs|
  {
    if vs == [] then m
    else PutAll(m, vs[..|vs| - 1], key).Put(key(vs[|vs| - 1]), vs[|vs| - 1])
  }

  /** PutAll of one more value is one more Put. */
  lemma PutAllSnoc<K, V>(m: OrderedMap<K, V>, vs: seq<V>, v: V, key: V -> K)
    ensures PutAll(m, vs + [v], key) == PutAll(m, vs, key).Put(key(v), v)
  {
    assert (vs + [v])[..|vs|] == vs;
  }

  /** PutAll keeps a hash well formed. */
  lemma {:induction false} PutAllValid<K, V>(m: OrderedMap<K, V>, vs: seq<V>, key: V -> K)
    requires m.Valid()
    ensures PutAll(m, vs, key).Valid()
    decreases |vs|
  {
    if vs != [] {
      PutAllValid(m, vs[..|vs| - 1], key);
      PutSpec(PutAll(m, vs[..|vs| - 1], key), key(vs[|vs| - 1]), vs[|vs| - 1]);
    }
  }

  /** No two of `vs` share a key. */
  ghost predicate DistinctKeys<K, V>(vs: seq<V>, key: V -> K)
  {
    forall i, j :: 0 <= i < j < |vs| ==> key(vs[i]) != key(vs[j])
  }

  /** A value stored by PutAll is found under its key, unless a later value of
      the sequence has the same key. */
  lemma {:induction false} PutAllFinds<K, V>(m: OrderedMap<K, V>, vs: seq<V>, key: V -> K, i: nat)
    requires i < |vs|
    requires forall j :: i < j < |vs| ==> key(vs[j]) != key(vs[i])
    ensures PutAll(m, vs, key).Get(key(vs[i])) == Some(vs[i])
  {
    if i < |vs| - 1 {
      var prefix := vs[..|vs| - 1];
      assert prefix[i] == vs[i];
      assert forall j :: i < j < |prefix| ==> prefix[j] == vs[j];
      PutAllFinds(m, prefix, key, i);
    }
  }

  /** With distinct keys, every value stored by PutAll is found under its key. */
  lemma PutAllFindsMember<K, V>(m: OrderedMap<K, V>, vs: seq<V>, key: V -> K, v: V)
    requires DistinctKeys(vs, key) && v in vs
    ensures PutAll(m, vs, key).Get(key(v)) == Some(v)
  {
    var i :| 0 <= i < |vs| && vs[i] == v;
    PutAllFinds(m, vs, key, i);
  }

  /** PutAll leaves alone every key that none of `vs` has. */
  lemma {:induction false} PutAllKeepsOthers<K, V>(m: OrderedMap<K, V>, vs: seq<V>, key: V -> K, k: K)
    requires forall j :: 0 <= j < |vs| ==> key(vs[j]) != k
    ensures PutAll(m, vs, key).Get(k) == m.Get(k)
  {
    if vs != [] {
      var prefix := vs[..|vs| - 1];
      assert forall j :: 0 <= j < |prefix| ==> prefix[j] == vs[j];
      PutAllKeepsOthers(m, prefix, key, k);
    }
  }

  /** PutAll stores nothing but the given values: whatever is found afterwards was
      either there before or is one of `vs`. */
  lemma {:induction false} PutAllOnlyStores<K, V>(m: OrderedMap<K, V>, vs: seq<V>, key: V -> K, k: K)
    requires PutAll(m, vs, key).Get(k).Some?
    ensures m.Get(k) == PutAll(m, vs, key).Get(k) || PutAll(m, vs, key).Get(k).value in vs
  {
    if vs != [] {
      var prefix := vs[..|vs| - 1];
      if k != key(vs[|vs| - 1]) {
        PutAllOnlyStores(m, prefix, key, k);
        assert PutAll(m, vs, key).Get(k) == PutAll(m, prefix, key).Get(k);
        assert forall v :: v in prefix ==> v in vs;
      }
    }
  }

  /** The hash lists the keys of `vs` in order, stores each value under its own
      key, and stores nothing under an unlisted key. */
  ghost predicate FilledInOrder<K, V>(r: OrderedMap<K, V>, vs: seq<V>, key: V -> K)
  {
    && |r.keys| == |vs|
    && (forall i :: 0 <= i < |vs| ==> r.keys[i] == key(vs[i]) && key(vs[i]) in r.entries && r.entries[key(vs[i])] == vs[i])
    && (forall k :: k in r.entries ==> k in r.keys)
  }

  /** Starting from `{}` with values whose keys are distinct, the keys come out in
      the order of `vs` and each key holds its own value. */
  lemma {:induction false} PutAllFromEmpty<K, V>(vs: seq<V>, key: V -> K)
    requires DistinctKeys(vs, key)
    ensures FilledInOrder(PutAll(Empty(), vs, key), vs, key)
  {
    if vs != [] {
      var n := |vs| - 1;
      var prefix := vs[..n];
      assert forall j :: 0 <= j < |prefix| ==> prefix[j] == vs[j];
      assert DistinctKeys(prefix, key);
      PutAllFromEmpty(prefix, key);
      FilledInOrderExtend(PutAll(Empty(), prefix, key), vs, key);
    }
  }

  lemma FilledInOrderExtend<K, V>(p: OrderedMap<K, V>, vs: seq<V>, key: V -> K)
    requires vs != [] && DistinctKeys(vs, key)
    requires FilledInOrder(p, vs[..|vs| - 1], key)
    ensures FilledInOrder(p.Put(key(vs[|vs| - 1]), vs[|vs| - 1]), vs, key)
  {
    var n := |vs| - 1;
    var k := key(vs[n]);
    assert forall j :: 0 <= j < n ==> vs[..n][j] == vs[j];
    assert k !in p.entries;
    var r := p.Put(k, vs[n]);
    forall i | 0 <= i < |vs|
      ensures r.keys[i] == key(vs[i]) && key(vs[i]) in r.entries && r.entries[key(vs[i])] == vs[i]
    {
      if i < n {
        assert key(vs[i]) != k;
      }
    }
  }

  /** `values` of a hash filled from `{}` with distinct keys is the sequence of
      values stored, in order. */
  lemma PutAllValues<K, V>(vs: seq<V>, key: V -> K)
    requires DistinctKeys(vs, key)
    ensures PutAll(Empty(), vs, key).Values() == vs
  {
    PutAllFromEmpty(vs, key);
    var r := PutAll(Empty(), vs, key);
    ValuesOfStored(r.keys, r.entries);
  }
}

=== FILE: state.dfy ===
/** The state registry (lib/ansi_codes/state.rb): every State is built once
    from a row of the state data file, entered into three hashes keyed by its
    lower-cased ANSI code, name and abbreviation, and the hashes are then frozen.
    `find` routes a query to one of the three hashes by the query's type and shape. */
module States {
  import opened Common
  import opened Text
  import opened OrderedMaps

  /** A US state or state-equivalent. Its attributes never change once it exists;
      two States are the same entity only if they are the same object. */
  class State {
    const ansiCode: string      // two-digit ANSI code
    const name: string          // title-case name
    const abbreviation: string  // two-letter upper-case abbreviation

    constructor (ansiCode: string, name: string, abbreviation: string)
      ensures this.ansiCode == ansiCode && this.name == name && this.abbreviation == abbreviation
    {
      this.ansiCode := ansiCode;
      this.name := name;
      this.abbreviation := abbreviation;
    }
  }

  /** A row of the state data file: its `state`, `state_name` and `stusab` columns. */
  datatype StateRow = StateRow(state: string, stateName: string, stusab: string)

  function RowOf(s: State): StateRow
  {
    StateRow(s.ansiCode, s.name, s.abbreviation)
  }

  /** The rows the States were built from, in order. */
  function RowsOf(ss: seq<State>): (rows: seq<StateRow>)
    ensures |rows| == |ss|
  {
    if ss == [] then [] else RowsOf(ss[..|ss| - 1]) + [RowOf(ss[|ss| - 1])]
  }

  /** The keys a State is stored under, one per hash. */
  function CodeKey(s: State): string { Lower(s.ansiCode) }
  function NameKey(s: State): string { Lower(s.name) }
  function AbbreviationKey(s: State): string { Lower(s.abbreviation) }

  /** What the data file promises of a State: a two-digit code, a two-letter
      upper-case abbreviation, and a name of at least three characters that
      starts with a capital letter. */
  predicate WellFormed(s: State)
  {
    && |s.ansiCode| == 2 && AllDigits(s.ansiCode)
    && |s.abbreviation| == 2 && IsUpper(s.abbreviation[0]) && IsUpper(s.abbreviation[1])
    && |s.name| >= 3 && IsUpper(s.name[0])
  }

  /** The routing of `State.find`: an Integer is formatted with `'%02d'` and goes
      to the ANSI-code hash; a String goes there as it is when `Integer(value, 10)`
      accepts it, else to the abbreviation hash when it has two characters and to
      the name hash otherwise; anything else is an ArgumentError. */
  function StateLookup(q: Query): (r: Result<Lookup>)
    ensures q.QOther? <==> r == Err(ArgumentError)
    ensures r.Ok? ==> (r.value.selector == ByCode <==> q.QInt? || IsInteger(q.s))
    ensures r.Ok? ==> (r.value.selector == ByAbbreviation <==> q.QStr? && !IsInteger(q.s) && |q.s| == 2)
    ensures q.QInt? ==> r.Ok? && r.value.value == Pad(q.n, 2) && |r.value.value| >= 2
    ensures q.QStr? ==> r.Ok? && r.value.value == q.s
  {
    match q
    case QInt(n) => Ok(Lookup(ByCode, Pad(n, 2)))
    case QStr(s) =>
      if IsInteger(s) then Ok(Lookup(ByCode, s))
      else if |s| == 2 then Ok(Lookup(ByAbbreviation, s))
      else Ok(Lookup(ByName, s))
    case QOther => Err(ArgumentError)
  }

  /** `@states`: the ANSI-code, name and abbreviation hashes, each keyed by the
      lower-cased attribute. */
  datatype StateTables = StateTables(
    byCode: OrderedMap<string, State>,
    byName: OrderedMap<string, State>,
    byAbbreviation: OrderedMap<string, State>)
  {
    ghost predicate Valid()
    {
      byCode.Valid() && byName.Valid() && byAbbreviation.Valid()
    }

    /** The three assignments of `State#initialize`: `s` is stored in every hash
        under its own lower-cased attribute. */
    function Add(s: State): StateTables
    {
      StateTables(
        byCode.Put(CodeKey(s), s),
        byName.Put(NameKey(s), s),
        byAbbreviation.Put(AbbreviationKey(s), s))
    }

    /** What registering each of `ss`, in order, makes of these hashes. */
    function AddAll(ss: seq<State>): StateTables
    {
      StateTables(
        PutAll(byCode, ss, CodeKey),
        PutAll(byName, ss, NameKey),
        PutAll(byAbbreviation, ss, AbbreviationKey))
    }

    /** `@states[selector]` */
    function Table(selector: Selector): OrderedMap<string, State>
    {
      match selector
      case ByCode => byCode
      case ByName => byName
      case ByAbbreviation => byAbbreviation
    }

    /** `State.find(value)`: route the query, then look its lower-cased value up in
        the selected hash. A query of another type is an ArgumentError; a key the
        hash lacks is a StateNotFound that quotes the routed value. */
    function Find(q: Query): (r: Result<State>)
      ensures q.QOther? <==> r == Err(ArgumentError)
      ensures q.QStr? && r.Err? ==> r.error == StateNotFound(q.s)
      ensures q.QInt? && r.Err? ==> r.error == StateNotFound(Pad(q.n, 2))
      ensures StateLookup(q).Ok? ==>
        var l := StateLookup(q).value;
        (r.Ok? <==> Lower(l.value) in Table(l.selector).entries)
        && (r.Ok? ==> Table(l.selector).Get(Lower(l.value)) == Some(r.value))
    {
      match StateLookup(q)
      case Err(e) => Err(e)
      case Ok(l) =>
        var key := Lower(l.value);
        if key in Table(l.selector).entries then Ok(Table(l.selector).entries[key])
        else Err(StateNotFound(l.value))
    }

    /** `State.all`: the values of the ANSI-code hash, in insertion order. */
    function All(): seq<State>
    {
      byCode.Values()
    }
  }

  function EmptyTables(): StateTables
  {
    StateTables(Empty(), Empty(), Empty())
  }

  /** Registering one more State is one more Add. */
  lemma AddAllSnoc(t: StateTables, ss: seq<State>, s: State)
    ensures t.AddAll(ss + [s]) == t.AddAll(ss).Add(s)
  {
    PutAllSnoc(t.byCode, ss, s, CodeKey);
    PutAllSnoc(t.byName, ss, s, NameKey);
    PutAllSnoc(t.byAbbreviation, ss, s, AbbreviationKey);
  }

  /** One more registered row extends the rows read by its own row. */
  lemma RowsOfSnoc(states: seq<State>, rows: seq<StateRow>, i: nat, s: State)
    requires i < |rows| && RowsOf(states) == rows[..i] && RowOf(s) == rows[i]
    ensures RowsOf(states + [s]) == rows[..i + 1]
  {
    assert (states + [s])[..|states|] == states;
    assert rows[..i + 1] == rows[..i] + [rows[i]];
  }

  /** The State class itself: its `@states` and whether the class has been frozen. */
  class StateRegistry {
    var tables: StateTables
    var frozen: bool

    /** `@states = { ansi_code: {}, name: {}, abbreviation: {} }` */
    constructor ()
      ensures tables == EmptyTables() && !frozen
    {
      tables := EmptyTables();
      frozen := false;
    }

    /** `State.new(ansi_code, name, abbreviation)`: build a State and store it in all
        three hashes under its lower-cased code, name and abbreviation. Once the
        class is frozen the registration is refused and nothing changes. */
    method Register(ansiCode: string, name: string, abbreviation: string) returns (r: Result<State>)
      modifies this
      ensures frozen == old(frozen)
      ensures old(frozen) ==> r == Err(Frozen) && tables == old(tables)
      ensures !old(frozen) ==> r.Ok? && fresh(r.value) && RowOf(r.value) == StateRow(ansiCode, name, abbreviation)
      ensures !old(frozen) ==> tables == old(tables).Add(r.value)
    {
      if frozen {
        return Err(Frozen);
      }
      var s := new State(ansiCode, name, abbreviation);
      tables := tables.Add(s);
      r := Ok(s);
    }

    /** The class body: register one State per row, in file order, then freeze. */
    method Load(rows: seq<StateRow>) returns (states: seq<State>)
      requires !frozen
      modifies this
      ensures frozen
      ensures RowsOf(states) == rows
      ensures forall s :: s in states ==> fresh(s)
      ensures Distinct(states)
      ensures tables == old(tables).AddAll(states)
    {
      states := [];
      for i := 0 to |rows|
        invariant !frozen
        invariant RowsOf(states) == rows[..i]
        invariant forall s :: s in states ==> fresh(s)
        invariant Distinct(states)
        invariant tables == old(tables).AddAll(states)
      {
        var r := Register(rows[i].state, rows[i].stateName, rows[i].stusab);
        RowsOfSnoc(states, rows, i, r.value);
        AddAllSnoc(old(tables), states, r.value);
        DistinctSnoc(states, r.value);
        states := states + [r.value];
      }
      assert rows[..|rows|] == rows;
      frozen := true;
    }
  }

  /** The hashes hold exactly what loading `states` into empty hashes stores. */
  ghost predicate LoadedFrom(t: StateTables, states: seq<State>)
  {
    t == EmptyTables().AddAll(states)
  }

  /** No two loaded States share a code, a name or an abbreviation, ignoring case. */
  ghost predicate Unique(states: seq<State>)
  {
    DistinctKeys(states, CodeKey) && DistinctKeys(states, NameKey) && DistinctKeys(states, AbbreviationKey)
  }

  /** An Integer query is the same as the String query of its `'%02d'` form:
      `State.find(1) == State.find('01')`, and a failure quotes "01" in both. */
  lemma FindIntegerIsPaddedCode(t: StateTables, n: nat)
    ensures t.Find(QInt(n)) == t.Find(QStr(Pad(n, 2)))
  {
    var p := Pad(n, 2);
    assert IsInteger(p) by { assert IsDigit(p[0]); }
    assert StateLookup(QStr(p)) == StateLookup(QInt(n));
    LowerKeepsDigits(p);
  }

  lemma FindOneIsFindZeroOne(t: StateTables)
    ensures t.Find(QInt(1)) == t.Find(QStr("01"))
  {
    assert Pad(1, 2) == "01";
    FindIntegerIsPaddedCode(t, 1);
  }

  /** A String that parses as an integer is looked up in the ANSI-code hash as it
      is, without padding: while every code key has two characters, any other
      length misses, so `State.find('1')` does not find Alabama. */
  lemma IntegerStringNotPadded(t: StateTables, s: string)
    requires IsInteger(s) && |s| != 2
    requires forall k :: k in t.byCode.entries ==> |k| == 2
    ensures t.Find(QStr(s)) == Err(StateNotFound(s))
  {
  }

  /** Lookup ignores case: two Strings that lower-case alike find the same State,
      or both find none (`find('wi')` and `find('WI')`; `find('NEW JERSEY')` and
      `find('nEw JeRsEy')`). */
  lemma FindIgnoresCase(t: StateTables, a: string, b: string)
    requires Lower(a) == Lower(b)
    ensures t.Find(QStr(a)).Ok? <==> t.Find(QStr(b)).Ok?
    ensures t.Find(QStr(a)).Ok? ==> t.Find(QStr(a)).value == t.Find(QStr(b)).value
  {
    IntegerIgnoresCase(a);
    IntegerIgnoresCase(b);
    assert |a| == |b|;
  }

  /** After the load, every well-formed State with unique keys is found again by
      its code (as a String and as an Integer), its abbreviation and its name;
      so `find('AL')`, `find('01')` and `find(1)` return the same object. */
  lemma LoadedStateFound(t: StateTables, states: seq<State>, i: nat)
    requires LoadedFrom(t, states) && Unique(states)
    requires i < |states| && WellFormed(states[i])
    ensures t.Find(QStr(states[i].ansiCode)) == Ok(states[i])
    ensures t.Find(QInt(DecimalValue(states[i].ansiCode))) == Ok(states[i])
    ensures t.Find(QStr(states[i].abbreviation)) == Ok(states[i])
    ensures t.Find(QStr(states[i].name)) == Ok(states[i])
  {
    PutAllFinds(Empty(), states, CodeKey, i);
    PutAllFinds(Empty(), states, NameKey, i);
    PutAllFinds(Empty(), states, AbbreviationKey, i);
    FoundByCode(t, states[i]);
    FoundByAbbreviation(t, states[i]);
    FoundByName(t, states[i]);
  }

  /** A well-formed State stored under its code key is found by its code, both
      as a String and as an Integer. */
  lemma FoundByCode(t: StateTables, s: State)
    requires WellFormed(s) && t.byCode.Get(CodeKey(s)) == Some(s)
    ensures t.Find(QStr(s.ansiCode)) == Ok(s)
    ensures t.Find(QInt(DecimalValue(s.ansiCode))) == Ok(s)
  {
    assert IsInteger(s.ansiCode);
    PadRoundTrip(s.ansiCode);
    FindIntegerIsPaddedCode(t, DecimalValue(s.ansiCode));
  }

  /** A well-formed State stored under its abbreviation key is found by its
      abbreviation: two letters are not an integer and have length two. */
  lemma FoundByAbbreviation(t: StateTables, s: State)
    requires WellFormed(s) && t.byAbbreviation.Get(AbbreviationKey(s)) == Some(s)
    ensures t.Find(QStr(s.abbreviation)) == Ok(s)
  {
    assert !IsInteger(s.abbreviation) by { assert !IsDigit(s.abbreviation[0]); }
  }

  /** A well-formed State stored under its name key is found by its name: a
      capitalised name of three or more characters is routed to the name hash. */
  lemma FoundByName(t: StateTables, s: State)
    requires WellFormed(s) && t.byName.Get(NameKey(s)) == Some(s)
    ensures t.Find(QStr(s.name)) == Ok(s)
  {
    assert !IsInteger(s.name) by { assert !IsDigit(s.name[0]); }
  }

  /** A successful lookup returns one of the loaded States, never anything else. */
  lemma FoundIsLoaded(t: StateTables, states: seq<State>, q: Query)
    requires LoadedFrom(t, states)
    requires t.Find(q).Ok?
    ensures t.Find(q).value in states
  {
    var l := StateLookup(q).value;
    var key := Lower(l.value);
    match l.selector
    case ByCode => PutAllOnlyStores(Empty(), states, CodeKey, key);
    case ByName => PutAllOnlyStores(Empty(), states, NameKey, key);
    case ByAbbreviation => PutAllOnlyStores(Empty(), states, AbbreviationKey, key);
  }

  /** Loading into empty hashes leaves each hash well formed. */
  lemma LoadedValid(states: seq<State>)
    ensures EmptyTables().AddAll(states).Valid()
  {
    PutAllValid(Empty(), states, CodeKey);
    PutAllValid(Empty(), states, NameKey);
    PutAllValid(Empty(), states, AbbreviationKey);
  }

  /** `State.all` lists, for each key of the ANSI-code hash in insertion order,
      the State stored under it. */
  lemma AllFollowsCodeKeys(t: StateTables)
    requires t.byCode.Valid()
    ensures |t.All()| == |t.byCode.keys|
    ensures forall i :: 0 <= i < |t.byCode.keys| ==> t.byCode.Get(t.byCode.keys[i]) == Some(t.All()[i])
  {
    ValuesOfStored(t.byCode.keys, t.byCode.entries);
  }

  /** `State.all` after the load lists every loaded State once, in file order. */
  lemma AllInLoadOrder(t: StateTables, states: seq<State>)
    requires LoadedFrom(t, states) && DistinctKeys(states, CodeKey)
    ensures t.All() == states
  {
    PutAllValues(states, CodeKey);
  }
}

=== FILE: text.dfy ===
/** Character-level helpers: ASCII lower-casing (`String#downcase`), the shapes
    of numeric strings the lookups test for, and zero-padded decimal formatting
    (`'%02d' % n`, `'%03d' % n`) with its inverse. */
module Text {

  predicate IsUpper(c: char) { 'A' <= c <= 'Z' }

  predicate IsDigit(c: char) { '0' <= c <= '9' }

  function LowerChar(c: char): char
  {
    if IsUpper(c) then (c as int - 'A' as int + 'a' as int) as char else c
  }

  /** `s.downcase`, restricted to ASCII: every upper-case letter is replaced by its
      lower-case letter and every other character is kept. */
  function Lower(s: string): (r: string)
    ensures |r| == |s|
    ensures forall i :: 0 <= i < |s| ==> r[i] == LowerChar(s[i])
    ensures forall i :: 0 <= i < |r| ==> !IsUpper(r[i])
  {
    if s == [] then [] else [LowerChar(s[0])] + Lower(s[1..])
  }

  predicate AllDigits(s: string)
  {
    forall i :: 0 <= i < |s| ==> IsDigit(s[i])
  }

  /** Lower-casing leaves a digit string as it is. */
  lemma LowerKeepsDigits(s: string)
    requires AllDigits(s)
    ensures Lower(s) == s
  {
  }

  /** What `Integer(value, 10)` accepts, in this model: an optional sign followed
      by one or more decimal digits. */
  predicate IsInteger(s: string)
  {
    if |s| > 0 && (s[0] == '+' || s[0] == '-') then |s| >= 2 && AllDigits(s[1..])
    else |s| >= 1 && AllDigits(s)
  }

  /** `s =~ /^[0-9]{3}$/`: exactly three decimal digits. */
  predicate ThreeDigits(s: string)
  {
    |s| == 3 && AllDigits(s)
  }

  /** Whether a string is an integer does not depend on the case of its letters,
      so a query and its lower-cased form are routed alike. */
  lemma {:induction false} IntegerIgnoresCase(s: string)
    ensures IsInteger(Lower(s)) == IsInteger(s)
    ensures ThreeDigits(Lower(s)) == ThreeDigits(s)
  {
    var l := Lower(s);
    assert forall i :: 0 <= i < |s| ==> (IsDigit(l[i]) <==> IsDigit(s[i]));
    if |s| > 0 {
      assert (l[0] == '+' || l[0] == '-') <==> (s[0] == '+' || s[0] == '-');
      assert AllDigits(l[1..]) <==> AllDigits(s[1..]) by {
        assert forall i :: 0 <= i < |s| - 1 ==> l[1..][i] == l[i + 1] && s[1..][i] == s[i + 1];
      }
    }
  }

  function Pow10(k: nat): (r: nat)
    ensures r >= 1
  {
    if k == 0 then 1 else 10 * Pow10(k - 1)
  }

  function DigitChar(d: nat): (c: char)
    requires d < 10
  {
    ('0' as int + d) as char
  }

  /** The value of a string of decimal digits (leading zeros allowed). */
  function DecimalValue(s: string): nat
    requires AllDigits(s)
  {
    if s == [] then 0 else 10 * DecimalValue(s[..|s| - 1]) + (s[|s| - 1] as int - '0' as int)
  }

  /** The shortest decimal representation of `n`, as `n.to_s` writes it. */
  function Digits(n: nat): (r: string)
    ensures |r| >= 1 && AllDigits(r)
    ensures DecimalValue(r) == n
    ensures |r| > 1 ==> r[0] != '0'
  {
    if n < 10 then [DigitChar(n)]
    else
      var r := Digits(n / 10) + [DigitChar(n % 10)];
      assert r[..|r| - 1] == Digits(n / 10);
      r
  }

  function Zeros(k: nat): (r: string)
    ensures |r| == k && AllDigits(r)
  {
    if k == 0 then [] else Zeros(k - 1) + ['0']
  }

  lemma {:induction false} ZerosValue(k: nat)
    ensures DecimalValue(Zeros(k)) == 0
  {
    if k > 0 {
      assert Zeros(k)[..k - 1] == Zeros(k - 1);
      ZerosValue(k - 1);
    }
  }

  /** The value of a concatenation of digit strings. */
  lemma AllDigitsAppend(a: string, b: string)
    requires AllDigits(a) && AllDigits(b)
    ensures AllDigits(a + b)
  {
    forall i | 0 <= i < |a + b| ensures IsDigit((a + b)[i]) {
      if i < |a| { assert (a + b)[i] == a[i]; } else { assert (a + b)[i] == b[i - |a|]; }
    }
  }

  lemma {:induction false} DecimalValueAppend(a: string, b: string)
    requires AllDigits(a) && AllDigits(b)
    ensures AllDigits(a + b)
    ensures DecimalValue(a + b) == DecimalValue(a) * Pow10(|b|) + DecimalValue(b)
  {
    AllDigitsAppend(a, b);
    if b == [] {
      assert a + b == a;
    } else {
      var b' := b[..|b| - 1];
      var last := b[|b| - 1] as int - '0' as int;
      AllDigitsAppend(a, b');
      assert (a + b)[..|a + b| - 1] == a + b';
      assert (a + b)[|a + b| - 1] == b[|b| - 1];
      assert DecimalValue(a + b) == 10 * DecimalValue(a + b') + last;
      assert DecimalValue(b) == 10 * DecimalValue(b') + last;
      DecimalValueAppend(a, b');
      ScaleStep(DecimalValue(a), Pow10(|b'|), DecimalValue(b'), last);
    }
  }

  lemma ScaleStep(x: int, p: int, y: int, d: int)
    ensures 10 * (x * p + y) + d == x * (10 * p) + (10 * y + d)
  {
  }

  /** `n` needs at most `k` digits exactly when it is below 10^k. */
  lemma {:induction false} DigitsLength(n: nat, k: nat)
    requires k >= 1
    ensures |Digits(n)| <= k <==> n < Pow10(k)
  {
    if n >= 10 {
      if k == 1 {
        assert |Digits(n)| == |Digits(n / 10)| + 1;
        assert Pow10(1) == 10;
      } else {
        DigitsLength(n / 10, k - 1);
      }
    } else {
      assert Pow10(k) >= 10 by { Pow10Grows(k); }
    }
  }

  lemma {:induction false} Pow10Grows(k: nat)
    requires k >= 1
    ensures Pow10(k) >= 10
  {
    if k > 1 { Pow10Grows(k - 1); }
  }

  /** `'%0<width>d' % n` for a non-negative `n`: the decimal digits of `n`,
      left-padded with zeros to `width` characters; a wider number is not cut. */
  function Pad(n: nat, width: nat): (r: string)
    ensures AllDigits(r) && |r| >= 1
    ensures DecimalValue(r) == n
    ensures |r| >= width
    ensures width >= 1 ==> (|r| == width <==> n < Pow10(width))
    ensures |r| > 1 && |r| > width ==> r[0] != '0'
  {
    var d := Digits(n);
    DigitsLength(n, if width >= 1 then width else 1);
    if |d| < width then
      DecimalValueAppend(Zeros(width - |d|), d);
      ZerosValue(width - |d|);
      Zeros(width - |d|) + d
    else
      d
  }

  /** A digit string never reaches 10 to the power of its length. */
  lemma {:induction false} DecimalValueBound(s: string)
    requires AllDigits(s)
    ensures DecimalValue(s) < Pow10(|s|)
  {
    if s != [] {
      DecimalValueBound(s[..|s| - 1]);
    }
  }

  /** Two digit strings of the same length and value are equal. */
  lemma {:induction false} DigitStringsUnique(a: string, b: string)
    requires AllDigits(a) && AllDigits(b) && |a| == |b|
    requires DecimalValue(a) == DecimalValue(b)
    ensures a == b
  {
    if a != [] {
      var a', b' := a[..|a| - 1], b[..|b| - 1];
      var x, y := a[|a| - 1] as int - '0' as int, b[|b| - 1] as int - '0' as int;
      assert 10 * DecimalValue(a') + x == 10 * DecimalValue(b') + y;
      assert x == y && DecimalValue(a') == DecimalValue(b');
      DigitStringsUnique(a', b');
      assert a == a' + [a[|a| - 1]] && b == b' + [b[|b| - 1]];
    }
  }

  /** Formatting the value of a digit string back to the string's own width gives
      the string itself: `'%02d' % "01".to_i == "01"`. */
  lemma PadRoundTrip(s: string)
    requires AllDigits(s) && |s| >= 1
    ensures Pad(DecimalValue(s), |s|) == s
  {
    DecimalValueBound(s);
    DigitStringsUnique(Pad(DecimalValue(s), |s|), s);
  }
}
